=== FILE: README.md ===
# Match play in Cheesy Arena Lite, modelled in Dafny

This project models the match-control core of the Cheesy Arena Lite field
management system. It covers three parts:

- **Score-commit engine** (`ScoreCommit`, `score_commit.dfy`). It commits a
  result for a match. The test match (id 0) is never stored. Each other
  commit gets the next play number, and the winner is decided by comparing
  the alliance totals. In an elimination match, an alliance with a red card
  is disqualified to a total of 0. Every team's sticky yellow-card flag is
  then recomputed from the latest result of each match.
- **Match clock** (`MatchClock`, `match_clock.dfy`). Its states are pre-match,
  start, warmup, autonomous, pause, teleop and post-match. A periodic
  `Update` is given the elapsed time in integer milliseconds. It moves a
  timed period on once its cumulative end is reached, and it sends a
  `matchTime` tick whenever the whole-second value or the state changes.
- **Arena and command handler** (`Field`, `field_arena.dfy`; `MatchPlay`,
  `match_play.dfy`). This is the arena's six alliance stations, its live
  scores and its display modes, together with the websocket commands
  `substituteTeam`, `toggleBypass`, `startMatch`, `abortMatch`,
  `commitResults`, `discardResults`, `setAudienceDisplay` and
  `setAllianceStationDisplay`. Each command is checked before it is applied.
  A refused command changes nothing and answers only its sender.

The production files behind `web/match_play_test.go` (the web handler and
the `field`, `model` and `tournament` packages) are not part of this model, so
every contract follows that test file's assertions. Where the tests are
silent, the model takes the simplest behaviour consistent with them, and the
lines below say which. Scores are opaque natural totals, because the game's
point rules are not part of this model. `outcomes.dfy` holds the
`Option`/`Result` wrappers and the `Message` datatype of broadcast topics.

Two behaviours the tests pin down shape the model:

- **Reset guard.** `discardResults` sent in pre-match succeeds
  (`web/match_play_test.go:313-315`), and `commitResults`/`discardResults`
  sent during the start state are refused with "Cannot reset match"
  (`:298-301`). So the guard is "no match in progress": pre-match and
  post-match are both accepted. Refusing every other running state too is a
  generalisation from the start state. Only a commit from post-match has a
  finished match to store; `commitResults` in pre-match only resets.
- **Stepwise clock.** The test at `:372-377` sets the elapsed time back to
  1.01 s while in autonomous and still expects state 3. So `Update` is a
  forward-only single step from the current state, not a function of the
  elapsed time alone. The period as a pure function of elapsed time is kept
  as the reference `PeriodAt`, and lemmas prove how the stepwise update
  relates to it.

## Model

| member | source | states |
|---|---|---|
| ScoreCommit.CommitMatchScore | web/match_play_test.go:119-237 | The test match leaves the store untouched. Any other commit gets play number = prior results + 1, and the new result is appended after the match's earlier results, which stay as they were. Other matches' results are unchanged. The match becomes complete, with winner R/B/T exactly when red > blue, blue > red or red = blue. In eliminations, a red card zeroes that alliance's total, and otherwise totals are kept. Each team's flag is set iff this result or the latest result of another match cards it. |
| ScoreCommit.CardedAfterAppend | web/match_play_test.go:196-224 | After appending a result to a match, a team is carded by some latest result iff the new result cards it or another match's latest result does. |
| ScoreCommit.CommitKeepsInvariants | web/match_play_test.go:130-156 | Commits preserve sequential play numbers 1..n per match. After a real commit, every team's flag agrees with the latest results, whatever the flags were before. |
| ScoreCommit.CommitAllNumbersPlays | web/match_play_test.go:130-156 | For any sequence of commits on one real match, earlier results are kept, the count grows by the number of commits, and the k-th new result has play number prior + k. |
| ScoreCommit.EliminationTieStaysTied | web/match_play_test.go:186-190 | An elimination match with equal totals and equal red-card status is recorded as a tie, so no tiebreak is applied. |
| ScoreCommit.TestMatchStoresNothing | web/match_play_test.go:122-128 | Committing the test match stores no result and changes nothing. |
| ScoreCommit.RecommitScenario | web/match_play_test.go:130-158 | Three commits on a fresh qualification match (blue only, red only, nothing) get play numbers 1, 2, 3 and winners B, R, T. |
| ScoreCommit.StickyCardScenario | web/match_play_test.go:196-224 | A yellow card sets the team's flag. A later result without a card clears it, and a red card sets it again. |
| ScoreCommit.EliminationRedCardScenario | web/match_play_test.go:226-236 | A red card on a red-alliance team in an elimination match makes red's total 0, keeps blue's nonzero total, and blue wins. |
| ScoreCommit.EliminationTieScenario | web/match_play_test.go:175-190 | A tied result is T as a qualification and stays T when recommitted as an elimination. |
| MatchClock.Update | web/match_play_test.go:352-394 | Each update moves at most one state forward. Pre- and post-match are held and start goes to warmup. A timed period changes iff its cumulative end is reached. The reported second is the truncated elapsed second. matchTime(state, second) is sent iff the second or the state changed. status is sent iff a timed period ended, and display modes are sent iff start was left. |
| MatchClock.AdvanceApproachesReference | web/match_play_test.go:360-394 | An update never passes the reference period for the elapsed time, stays once there, and otherwise moves one period closer. |
| MatchClock.PeriodAtMonotone | web/match_play_test.go:360-394 | A later elapsed time is never in an earlier reference period. |
| MatchClock.UpdatesSettleOnReference | web/match_play_test.go:360-394 | Repeated updates at a fixed elapsed time reach exactly the reference period, and the reference period is a fixed point of the update. |
| MatchClock.UpdateTracksReference | web/match_play_test.go:387-394 | If at most one boundary lies between two samples, one update from the reference period of the first gives the reference period of the second. |
| MatchClock.TicksWithinPeriod | web/match_play_test.go:371-385 | Inside one timed period, a run of updates keeps the state and sends only matchTime ticks, one per change of whole second. |
| MatchClock.OneTickPerSecond | web/match_play_test.go:371-385 | For non-decreasing sample times, ticks strictly increase and all lie past the last reported second. Each tick comes from a sample, and every second a sample reaches past the last one is ticked, so there is exactly one tick per second. |
| MatchClock.StartScenario | web/match_play_test.go:352-359 | The first update after start enters warmup and sends matchTime and both display-mode messages. |
| MatchClock.WarmupBoundaryScenario | web/match_play_test.go:360-366 | With a 3 s warmup, an update at 3 s gives state 3 and sends status and matchTime(3, 3). |
| MatchClock.SubSecondTickScenario | web/match_play_test.go:371-385 | At 1.01 s an update ticks matchTime(3, 1). At 1.99 s it sends nothing. At 2.01 s it ticks matchTime(3, 2). |
| MatchClock.AutoBoundaryScenario | web/match_play_test.go:387-394 | At warmup + auto seconds, autonomous moves to state 4 and sends status and matchTime(4, warmup + auto). |
| Field.ParseStation | web/match_play_test.go:263-282 | A name parses to a key iff it is one of the six station names, and the parsed key's name is the input. |
| Field.ParseStationName | web/match_play_test.go:267-282 | Every station name parses back to its own key. |
| Field.StartMatch | web/match_play_test.go:287-297 | Start succeeds iff the state is pre-match and every station is bypassed or has a linked, assigned team. On success the state is start, the live scores are cleared and nothing else changes. Otherwise the error is "Cannot start match". |
| Field.AbortMatch | web/match_play_test.go:285-305 | Abort succeeds iff a match is in progress, and the result is post-match with nothing else changed. Otherwise the error is "Cannot abort match". |
| Field.ResetMatch | web/match_play_test.go:298-315 | Reset succeeds iff no match is in progress, and the result is pre-match with nothing else changed. Otherwise the error is "Cannot reset match". |
| Field.StartAbortResetCycle | web/match_play_test.go:289-315 | From a ready pre-match arena, start, abort and reset all succeed and give back the same arena with the live scores cleared. |
| Field.AbortExcludesReset | web/match_play_test.go:285-315 | In every state exactly one of abort and reset is allowed. |
| Field.ToggleBypass | web/match_play_test.go:273-282 | Only the given station's bypass flag flips. Its team and every other station are unchanged. |
| Field.ToggleBypassTwice | web/match_play_test.go:277-282 | Two toggles of the same station restore the arena exactly. |
| Field.SubstituteTeam | web/match_play_test.go:267-272 | The station and the loaded match's slot get the team, and 0 empties them. The station changes only in its team (bypass and robot link are kept), other stations are unchanged, and the loaded match changes only in that slot. |
| Field.SubstituteTeamBack | web/match_play_test.go:267-272 | When station and match agree on a station's team, substituting that team back after any substitution restores the arena exactly, as putting 254 into B1 and then 0 does for an empty slot. |
| Field.SubstituteTeamOverrides | web/match_play_test.go:267-272 | A second substitution into the same station overrides the first completely. |
| Field.WithSlotTeam | web/match_play_test.go:267-272 | Only the given slot of the match changes: every other slot, the id, type, name, status and winner are kept. |
| Field.Update | web/match_play_test.go:352-394 | A periodic update changes only the arena's state and last second, moves at most one state forward and holds pre-/post-match. The new state, the reported second and the messages are exactly those of the match clock's step, so start becomes warmup on the first update; matchTime is sent iff the second or state changed. |
| MatchPlay.Decode | web/match_play_test.go:258-282 | An unknown type, and only an unknown type, gives "Invalid message type". A decoded command has the message's type. toggleBypass and the display commands decode iff the payload is a string, substituteTeam iff it is not, a missing substituteTeam payload decodes to team 0 at position "" (which no station accepts), and any other failure of a known type is "Failed to parse". |
| MatchPlay.DecodeRoundTrip | web/match_play_test.go:258-323 | Every command decodes back from its own type and payload. |
| MatchPlay.CommitCurrentMatch | web/match_play_test.go:306-311 | Committing stores the live scores and cards as the saved result, even for the test match. The store, the saved match and the saved result are exactly those of the score commit of the live result, so a real match is marked complete with its winner, gets the result appended and nothing else in the store changes beyond the card flags; the test match leaves the store unchanged. Nothing in the arena but the saved match and result changes. |
| MatchPlay.Apply | web/match_play_test.go:258-323 | Each command succeeds exactly under its guard: a valid station, pre-match with all ready, an active match, or no match in progress. On success it gives the station, start or abort effect with status (and, for abort, audience-display) broadcasts, or the reset to pre-match with reload, realtimeScore and setAllianceStationDisplay. Only a commit from post-match stores the live result; from pre-match it changes nothing but broadcasts. Each refusal carries its own text: "Invalid alliance station" for a bad station, "Cannot start match", "Cannot abort match", and "Cannot reset match" for commit or discard. |
| MatchPlay.HandleMessage | web/match_play_test.go:258-323 | A refused message leaves arena and store unchanged and broadcasts nothing. An accepted one gives exactly the arena, store and broadcast of applying the decoded command. The error is "Invalid message type" iff the type is unknown; otherwise a refusal answers with the decoding error or the error of applying the command. |
| MatchPlay.HandleMessageMovesAlongLifecycle | web/match_play_test.go:284-315 | Every message either keeps the match state or moves it along one lifecycle edge: pre-match to start by startMatch, a running match to post-match by abortMatch, and no match in progress to pre-match by commitResults or discardResults. Other message types never change the state. |
| MatchPlay.HandleMessageKeepsStoreInvariants | web/match_play_test.go:306-315 | Any message keeps play numbers sequential per match and the card flags consistent with the latest results. The store changes only through commitResults from post-match. |
| MatchPlay.UnknownTypeScenario | web/match_play_test.go:258-260 | An unknown message type gets the error and changes nothing. |
| MatchPlay.SubstituteTeamScenario | web/match_play_test.go:263-272 | No payload and "B5" are invalid stations. (254, "B1") sets blue 1 to 254 with a status broadcast, and (0, "B1") clears it. |
| MatchPlay.ToggleBypassScenario | web/match_play_test.go:273-282 | No payload fails to parse and "R4" is invalid. Toggling "R3" twice sets and then clears its bypass flag. |
| MatchPlay.MatchFlowScenario | web/match_play_test.go:284-305 | Abort and start are refused in pre-match with an unready station. With all six stations bypassed, start succeeds, commit and discard are refused, and abort gives post-match with status and audience-display broadcasts. |
| MatchPlay.CommitFromPostMatchScenario | web/match_play_test.go:306-315 | Commit from post-match saves the live totals, returns to pre-match and broadcasts reload, realtimeScore and setAllianceStationDisplay. A following discard in pre-match is accepted. |
| MatchPlay.DisplayScenario | web/match_play_test.go:317-323 | The display commands set the mode to "logo" and broadcast only their own topic. |

## Left out

- HTTP pages, match loading and show-result routes (`web/match_play_test.go:22-117`): these are template output and database lookups.
- Websocket transport, initial-sync message order and fan-out to many clients (`:249-256`, `:338-344`): this is I/O and concurrent delivery. `HandleMessage` returns the broadcast topics instead.
- Publishing to The Blue Alliance and STEMtv, and their log messages (`:160-172`): these are asynchronous network calls that never affect the commit.
- Game point rules (AutoRuns, ForceCubes, fouls, ...): alliance totals are opaque naturals, and `BuildTestMatchResult` is represented by any result with a nonzero blue total.
- Persistence errors: the store is an in-memory map that cannot fail. Card maps are keyed by team number rather than by its decimal string.
- Wall-clock time: the elapsed milliseconds since the match start are an input. The restart of the match clock on leaving start is shown as a reported second of 0.
- Field.Update: the display modes set when warmup begins are not modelled. The update sends the display topics without changing the modes. AbortMatch likewise leaves the audience mode unchanged while its topic is broadcast.
- Field.StartMatch: driver-station robot linkage is an input flag per station, `robotLinked`. Emergency stops and the other start checks of the field hardware are not modelled.
- ScoreCommit.CommitMatchScore: a result committed again with its play number already set is treated as a new commit. Updating a stored result in place is not modelled. Updates to rankings, elimination brackets and awards after a commit are not part of this model.
- MatchPlay.Apply: the reset after commitResults or discardResults broadcasts realtimeScore and setAllianceStationDisplay without modelling what changes the live scores or the alliance-station display mode then; the model leaves both as they were.
- MatchPlay.Decode: the error text for a non-object substituteTeam payload is not modelled; the model answers "Failed to parse".
- Timeout states and the scoring-status, matchTiming and scoring-panel messages are outside the tested behaviour.
- `static/js/announcer_display.js`: browser-side rendering with no state of its own.

=== FILE: field_arena.dfy ===
/**
  The arena: the one shared record of what is happening on the field now —
  the loaded match, its state, the six alliance stations, the live scores,
  the last committed result shown to the audience, and the display modes.
*/
module Field {
  import opened Outcomes
  import opened MatchModel
  import Clock = MatchClock
  import Messages

  datatype StationKey = R1 | R2 | R3 | B1 | B2 | B3

  function StationName(k: StationKey): string {
    match k
    case R1 => "R1"
    case R2 => "R2"
    case R3 => "R3"
    case B1 => "B1"
    case B2 => "B2"
    case B3 => "B3"
  }

  /** Reads a station key as the clients spell it; anything else is not a station. */
  function ParseStation(name: string): (r: Option<StationKey>)
    ensures r.Some? ==> StationName(r.value) == name
    ensures r.None? <==> forall k: StationKey :: StationName(k) != name
  {
    if name == "R1" then Some(R1)
    else if name == "R2" then Some(R2)
    else if name == "R3" then Some(R3)
    else if name == "B1" then Some(B1)
    else if name == "B2" then Some(B2)
    else if name == "B3" then Some(B3)
    else None
  }

  /** Every station name reads back as its own key. */
  lemma ParseStationName(k: StationKey)
    ensures ParseStation(StationName(k)) == Some(k)
  {
  }

  /** A station's team (0 = empty), its bypass flag, and whether its robot is linked to the field. */
  datatype Station = Station(team: nat, bypass: bool, robotLinked: bool)

  /** A station lets the match start when bypassed or when an assigned team's robot is linked. */
  predicate StationReady(st: Station) {
    st.bypass || (st.team != 0 && st.robotLinked)
  }

  /** An alliance's running total and cards during the match. */
  datatype LiveScore = LiveScore(total: nat, cards: map<nat, Card>)

  const EmptyLiveScore := LiveScore(0, map[])

  datatype Arena = Arena(
    timing: Clock.Timing,
    state: Clock.MatchState,
    lastSec: int,
    current: Match,
    stations: map<StationKey, Station>,
    red: LiveScore,
    blue: LiveScore,
    savedMatch: Option<Match>,
    savedResult: Option<MatchResult>,
    audienceDisplay: string,
    allianceStationDisplay: string)

  /** The arena always holds all six stations. */
  predicate Valid(a: Arena) {
    forall k: StationKey :: k in a.stations
  }

  predicate AllStationsReady(a: Arena)
    requires Valid(a)
  {
    forall k: StationKey :: StationReady(a.stations[k])
  }

  const CannotStartMatch := "Cannot start match"
  const CannotAbortMatch := "Cannot abort match"
  const CannotResetMatch := "Cannot reset match"

  /** Starts the loaded match: only from pre-match with every station ready; clears the live scores. */
  function StartMatch(a: Arena): (r: Result<Arena>)
    requires Valid(a)
    ensures r.Ok? <==> a.state == Clock.PreMatch && AllStationsReady(a)
    ensures r.Err? ==> r.msg == CannotStartMatch
    ensures r.Ok? ==> Valid(r.value) && r.value.state == Clock.StartMatch
    ensures r.Ok? ==> r.value.red == EmptyLiveScore && r.value.blue == EmptyLiveScore
    ensures r.Ok? ==> r.value == a.(state := r.value.state, red := r.value.red, blue := r.value.blue)
  {
    if a.state != Clock.PreMatch || !AllStationsReady(a) then Err(CannotStartMatch)
    else Ok(a.(state := Clock.StartMatch, red := EmptyLiveScore, blue := EmptyLiveScore))
  }

  /** Ends a match in progress at once, whatever time remains. */
  function AbortMatch(a: Arena): (r: Result<Arena>)
    ensures r.Ok? <==> Clock.IsActive(a.state)
    ensures r.Err? ==> r.msg == CannotAbortMatch
    ensures r.Ok? ==> r.value == a.(state := Clock.PostMatch)
  {
    if !Clock.IsActive(a.state) then Err(CannotAbortMatch)
    else Ok(a.(state := Clock.PostMatch))
  }

  /** Returns the field to pre-match; refused while a match is in progress. */
  function ResetMatch(a: Arena): (r: Result<Arena>)
    ensures r.Ok? <==> !Clock.IsActive(a.state)
    ensures r.Err? ==> r.msg == CannotResetMatch
    ensures r.Ok? ==> r.value == a.(state := Clock.PreMatch)
  {
    if Clock.IsActive(a.state) then Err(CannotResetMatch)
    else Ok(a.(state := Clock.PreMatch))
  }

  /**
    A whole match cycle — start, abort, reset — brings a ready pre-match
    arena back to itself, except that the live scores have been cleared.
  */
  lemma StartAbortResetCycle(a: Arena)
    requires Valid(a) && a.state == Clock.PreMatch && AllStationsReady(a)
    ensures StartMatch(a).Ok? && AbortMatch(StartMatch(a).value).Ok?
    ensures ResetMatch(AbortMatch(StartMatch(a).value).value) == Ok(a.(red := EmptyLiveScore, blue := EmptyLiveScore))
  {
  }

  /** In every state exactly one of abort and reset is allowed. */
  lemma AbortExcludesReset(a: Arena)
    ensures AbortMatch(a).Ok? <==> ResetMatch(a).Err?
  {
  }

  /** Flips one station's bypass flag; every other station and field is untouched. */
  function ToggleBypass(a: Arena, k: StationKey): (r: Arena)
    requires Valid(a)
    ensures Valid(r)
    ensures r.stations[k].bypass == !a.stations[k].bypass
    ensures r.stations[k].team == a.stations[k].team && r.stations[k].robotLinked == a.stations[k].robotLinked
    ensures forall j: StationKey :: j != k ==> r.stations[j] == a.stations[j]
    ensures r == a.(stations := r.stations)
  {
    a.(stations := a.stations[k := a.stations[k].(bypass := !a.stations[k].bypass)])
  }

  /** Toggling a station's bypass twice gives back the arena unchanged. */
  lemma ToggleBypassTwice(a: Arena, k: StationKey)
    requires Valid(a)
    ensures ToggleBypass(ToggleBypass(a, k), k) == a
  {
  }

  /** The team the match schedules in the slot of station `k`. */
  function SlotTeam(m: Match, k: StationKey): nat {
    match k
    case R1 => m.red1
    case R2 => m.red2
    case R3 => m.red3
    case B1 => m.blue1
    case B2 => m.blue2
    case B3 => m.blue3
  }

  /** The match with `team` in the slot of station `k`; its identity, type, status, winner and name are kept. */
  function WithSlotTeam(m: Match, k: StationKey, team: nat): (r: Match)
    ensures SlotTeam(r, k) == team
    ensures forall j: StationKey :: j != k ==> SlotTeam(r, j) == SlotTeam(m, j)
    ensures r == m.(red1 := r.red1, red2 := r.red2, red3 := r.red3, blue1 := r.blue1, blue2 := r.blue2, blue3 := r.blue3)
  {
    match k
    case R1 => m.(red1 := team)
    case R2 => m.(red2 := team)
    case R3 => m.(red3 := team)
    case B1 => m.(blue1 := team)
    case B2 => m.(blue2 := team)
    case B3 => m.(blue3 := team)
  }

  /** Puts `team` (0 = nobody) into station `k` and the loaded match's matching slot. */
  function SubstituteTeam(a: Arena, team: nat, k: StationKey): (r: Arena)
    requires Valid(a)
    ensures Valid(r)
    ensures r.stations[k].team == team && SlotTeam(r.current, k) == team
    ensures r.stations[k].bypass == a.stations[k].bypass
    ensures r.stations[k] == a.stations[k].(team := team)
    ensures forall j: StationKey :: j != k ==> r.stations[j] == a.stations[j] && SlotTeam(r.current, j) == SlotTeam(a.current, j)
    ensures r.current == WithSlotTeam(a.current, k, team)
    ensures r == a.(stations := r.stations, current := r.current)
  {
    a.(stations := a.stations[k := a.stations[k].(team := team)], current := WithSlotTeam(a.current, k, team))
  }

  /**
    Substituting a station's own team back undoes a substitution, when the
    station and the loaded match agree on who plays there.
  */
  lemma SubstituteTeamBack(a: Arena, team: nat, k: StationKey)
    requires Valid(a) && SlotTeam(a.current, k) == a.stations[k].team
    ensures SubstituteTeam(SubstituteTeam(a, team, k), a.stations[k].team, k) == a
  {
  }

  /** A second substitution into the same station overrides the first. */
  lemma SubstituteTeamOverrides(a: Arena, first: nat, second: nat, k: StationKey)
    requires Valid(a)
    ensures SubstituteTeam(SubstituteTeam(a, first, k), second, k) == SubstituteTeam(a, second, k)
  {
  }

  /** One periodic update: advances the clock and returns the messages to broadcast. */
  function Update(a: Arena, elapsedMs: nat): (r: (Arena, seq<Messages.Message>))
    ensures r.0 == a.(state := r.0.state, lastSec := r.0.lastSec)
    ensures r.0.state == a.state || Clock.StateIndex(r.0.state) == Clock.StateIndex(a.state) + 1
    ensures !Clock.IsActive(a.state) ==> r.0.state == a.state
    ensures Clock.IsTimed(a.state) ==> (r.0.state != a.state <==> elapsedMs >= Clock.PeriodEndSec(a.timing, a.state) * Clock.MsPerSecond)
    ensures r.0.lastSec >= 0
    ensures Messages.MatchTime(Clock.StateIndex(r.0.state), r.0.lastSec as nat) in r.1
        <==> r.0.lastSec != a.lastSec || r.0.state != a.state
    ensures var step := Clock.Update(a.timing, a.state, a.lastSec, elapsedMs);
      r.0.state == step.state && r.0.lastSec == step.lastSec as int && r.1 == step.sent
  {
    var step := Clock.Update(a.timing, a.state, a.lastSec, elapsedMs);
    (a.(state := step.state, lastSec := step.lastSec), step.sent)
  }
}

=== FILE: match_clock.dfy ===
/**
  The match lifecycle: pre-match, start, the timed periods (warmup,
  autonomous, pause, teleop) and post-match, advanced by a periodic update
  that is given the time elapsed since the match started, in milliseconds.
*/
module MatchClock {
  import Messages

  datatype MatchState =
    | PreMatch
    | StartMatch
    | WarmupPeriod
    | AutoPeriod
    | PausePeriod
    | TeleopPeriod
    | PostMatch

  /** The integer a `matchTime` message carries for each state. */
  function StateIndex(s: MatchState): nat {
    match s
    case PreMatch => 0
    case StartMatch => 1
    case WarmupPeriod => 2
    case AutoPeriod => 3
    case PausePeriod => 4
    case TeleopPeriod => 5
    case PostMatch => 6
  }

  /** A match is in progress between the start command and post-match. */
  predicate IsActive(s: MatchState) {
    s != PreMatch && s != PostMatch
  }

  predicate IsTimed(s: MatchState) {
    s == WarmupPeriod || s == AutoPeriod || s == PausePeriod || s == TeleopPeriod
  }

  /** Configured period durations, in whole seconds. */
  datatype Timing = Timing(warmupSec: nat, autoSec: nat, pauseSec: nat, teleopSec: nat)

  const MsPerSecond: nat := 1000

  /** Seconds after the match start at which timed period `s` is over. */
  function PeriodEndSec(t: Timing, s: MatchState): nat
    requires IsTimed(s)
  {
    if s == WarmupPeriod then t.warmupSec
    else if s == AutoPeriod then t.warmupSec + t.autoSec
    else if s == PausePeriod then t.warmupSec + t.autoSec + t.pauseSec
    else t.warmupSec + t.autoSec + t.pauseSec + t.teleopSec
  }

  function NextPeriod(s: MatchState): MatchState
    requires IsTimed(s)
  {
    if s == WarmupPeriod then AutoPeriod
    else if s == AutoPeriod then PausePeriod
    else if s == PausePeriod then TeleopPeriod
    else PostMatch
  }

  /**
    One update's state transition. Start always moves on to warmup (and
    restarts the match clock); a timed period moves to the next once its end
    is reached; pre-match and post-match are held.
  */
  function Advance(t: Timing, s: MatchState, elapsedMs: nat): MatchState {
    if s == StartMatch then WarmupPeriod
    else if IsTimed(s) && elapsedMs >= PeriodEndSec(t, s) * MsPerSecond then NextPeriod(s)
    else s
  }

  /**
    Reference: the period a started match is in after `elapsedMs`, the first
    whose cumulative end lies beyond the elapsed time, else post-match.
  */
  function PeriodAt(t: Timing, elapsedMs: nat): MatchState {
    if elapsedMs < t.warmupSec * MsPerSecond then WarmupPeriod
    else if elapsedMs < (t.warmupSec + t.autoSec) * MsPerSecond then AutoPeriod
    else if elapsedMs < (t.warmupSec + t.autoSec + t.pauseSec) * MsPerSecond then PausePeriod
    else if elapsedMs < (t.warmupSec + t.autoSec + t.pauseSec + t.teleopSec) * MsPerSecond then TeleopPeriod
    else PostMatch
  }

  /** The elapsed whole seconds reported: truncated during timed periods, 0 otherwise. */
  function MatchTimeSec(s: MatchState, elapsedMs: nat): nat {
    if IsTimed(s) then elapsedMs / MsPerSecond else 0
  }

  /** One update: the new state, the whole seconds remembered for the next update, and the messages sent. */
  datatype ClockStep = ClockStep(state: MatchState, lastSec: nat, sent: seq<Messages.Message>)

  /**
    A `matchTime` message is sent when the whole-second value differs from
    the last update's or the state changed; leaving a timed period also
    sends `status`; leaving start sends both display-mode messages.
  */
  function Update(t: Timing, s: MatchState, lastSec: int, elapsedMs: nat): (r: ClockStep)
    ensures r.state == s || StateIndex(r.state) == StateIndex(s) + 1
    ensures s == PreMatch || s == PostMatch ==> r.state == s
    ensures s == StartMatch ==> r.state == WarmupPeriod
    ensures IsTimed(s) ==> (r.state != s <==> elapsedMs >= PeriodEndSec(t, s) * MsPerSecond)
    ensures IsTimed(s) ==> r.lastSec * MsPerSecond <= elapsedMs < (r.lastSec + 1) * MsPerSecond
    ensures !IsTimed(s) ==> r.lastSec == 0
    ensures Messages.MatchTime(StateIndex(r.state), r.lastSec) in r.sent <==> r.lastSec != lastSec || r.state != s
    ensures forall msg :: msg in r.sent && msg.MatchTime? ==> msg == Messages.MatchTime(StateIndex(r.state), r.lastSec)
    ensures Messages.Status in r.sent <==> IsTimed(s) && r.state != s
    ensures Messages.SetAudienceDisplay in r.sent <==> s == StartMatch
    ensures Messages.SetAllianceStationDisplay in r.sent <==> s == StartMatch
    ensures |r.sent| == (if IsTimed(s) && r.state != s then 1 else 0)
      + (if r.lastSec != lastSec || r.state != s then 1 else 0)
      + (if s == StartMatch then 2 else 0)
  {
    var next := Advance(t, s, elapsedMs);
    var sec := MatchTimeSec(s, elapsedMs);
    var status := if IsTimed(s) && next != s then [Messages.Status] else [];
    var tick := if sec != lastSec || next != s then [Messages.MatchTime(StateIndex(next), sec)] else [];
    var displays := if s == StartMatch then [Messages.SetAudienceDisplay, Messages.SetAllianceStationDisplay] else [];
    ClockStep(next, sec, status + tick + displays)
  }

  /** Later times are never in earlier periods. */
  lemma PeriodAtMonotone(t: Timing, e0: nat, e1: nat)
    requires e0 <= e1
    ensures StateIndex(PeriodAt(t, e0)) <= StateIndex(PeriodAt(t, e1))
  {
  }

  /**
    An update never overshoots the reference period, stays put once there,
    and otherwise moves exactly one period closer.
  */
  lemma AdvanceApproachesReference(t: Timing, s: MatchState, elapsedMs: nat)
    requires s == StartMatch || IsTimed(s)
    requires StateIndex(s) <= StateIndex(PeriodAt(t, elapsedMs))
    ensures StateIndex(Advance(t, s, elapsedMs)) <= StateIndex(PeriodAt(t, elapsedMs))
    ensures s == PeriodAt(t, elapsedMs) ==> Advance(t, s, elapsedMs) == s
    ensures s != PeriodAt(t, elapsedMs) ==> StateIndex(Advance(t, s, elapsedMs)) == StateIndex(s) + 1
  {
  }

  /** `n` updates at the same elapsed time. */
  function AdvanceN(t: Timing, s: MatchState, elapsedMs: nat, n: nat): MatchState
    decreases n
  {
    if n == 0 then s else AdvanceN(t, Advance(t, s, elapsedMs), elapsedMs, n - 1)
  }

  /**
    From any state of a started match not past the reference period, repeated
    updates at one elapsed time settle on exactly the reference period.
  */
  lemma {:induction false} UpdatesSettleOnReference(t: Timing, s: MatchState, elapsedMs: nat)
    requires s != PreMatch
    requires StateIndex(s) <= StateIndex(PeriodAt(t, elapsedMs))
    ensures AdvanceN(t, s, elapsedMs, StateIndex(PeriodAt(t, elapsedMs)) - StateIndex(s)) == PeriodAt(t, elapsedMs)
    ensures Advance(t, PeriodAt(t, elapsedMs), elapsedMs) == PeriodAt(t, elapsedMs)
    decreases StateIndex(PeriodAt(t, elapsedMs)) - StateIndex(s)
  {
    if s != PeriodAt(t, elapsedMs) {
      AdvanceApproachesReference(t, s, elapsedMs);
      UpdatesSettleOnReference(t, Advance(t, s, elapsedMs), elapsedMs);
    }
  }

  /**
    Sampled so that at most one period boundary falls between two updates,
    the stepwise update keeps the state equal to the reference period.
  */
  lemma UpdateTracksReference(t: Timing, e0: nat, e1: nat)
    requires e0 <= e1
    requires PeriodAt(t, e0) != PostMatch
    requires StateIndex(PeriodAt(t, e1)) <= StateIndex(PeriodAt(t, e0)) + 1
    ensures Advance(t, PeriodAt(t, e0), e1) == PeriodAt(t, e1)
  {
  }

  /** The whole seconds that updates at the sampled times report, starting from `lastSec`. */
  function TickSeconds(lastSec: int, samplesMs: seq<nat>): seq<nat>
    decreases |samplesMs|
  {
    if |samplesMs| == 0 then []
    else
      var sec := samplesMs[0] / MsPerSecond;
      (if sec != lastSec then [sec] else []) + TickSeconds(sec, samplesMs[1..])
  }

  function TickMessages(state: nat, secs: seq<nat>): (r: seq<Messages.Message>)
    ensures |r| == |secs|
    ensures forall i :: 0 <= i < |secs| ==> r[i] == Messages.MatchTime(state, secs[i])
  {
    if |secs| == 0 then [] else [Messages.MatchTime(state, secs[0])] + TickMessages(state, secs[1..])
  }

  /** Runs one update per sample, returning the final state and every message sent. */
  function RunUpdates(t: Timing, s: MatchState, lastSec: int, samplesMs: seq<nat>): (MatchState, seq<Messages.Message>)
    decreases |samplesMs|
  {
    if |samplesMs| == 0 then (s, [])
    else
      var step := Update(t, s, lastSec, samplesMs[0]);
      var rest := RunUpdates(t, step.state, step.lastSec, samplesMs[1..]);
      (rest.0, step.sent + rest.1)
  }

  ghost predicate NonDecreasing(samplesMs: seq<nat>) {
    forall i, j :: 0 <= i < j < |samplesMs| ==> samplesMs[i] <= samplesMs[j]
  }

  /** Within one timed period, updates send nothing but the `matchTime` ticks of TickSeconds. */
  lemma {:induction false} TicksWithinPeriod(t: Timing, s: MatchState, lastSec: int, samplesMs: seq<nat>)
    requires IsTimed(s)
    requires forall i :: 0 <= i < |samplesMs| ==> samplesMs[i] < PeriodEndSec(t, s) * MsPerSecond
    ensures RunUpdates(t, s, lastSec, samplesMs) == (s, TickMessages(StateIndex(s), TickSeconds(lastSec, samplesMs)))
    decreases |samplesMs|
  {
    if |samplesMs| > 0 {
      var sec := samplesMs[0] / MsPerSecond;
      TicksWithinPeriod(t, s, sec, samplesMs[1..]);
      var head: seq<nat> := if sec != lastSec then [sec] else [];
      var step := Update(t, s, lastSec, samplesMs[0]);
      assert step.state == s && step.lastSec == sec;
      assert step.sent == TickMessages(StateIndex(s), head);
      TickMessagesAppend(StateIndex(s), head, TickSeconds(sec, samplesMs[1..]));
    }
  }

  lemma TickMessagesAppend(state: nat, a: seq<nat>, b: seq<nat>)
    ensures TickMessages(state, a + b) == TickMessages(state, a) + TickMessages(state, b)
  {
  }

  ghost predicate StrictlyIncreasing(secs: seq<nat>) {
    forall i, j :: 0 <= i < j < |secs| ==> secs[i] < secs[j]
  }

  lemma {:induction false} TicksIncrease(lastSec: int, samplesMs: seq<nat>)
    requires NonDecreasing(samplesMs)
    requires |samplesMs| > 0 ==> lastSec <= samplesMs[0] / MsPerSecond
    ensures StrictlyIncreasing(TickSeconds(lastSec, samplesMs))
    ensures forall x :: x in TickSeconds(lastSec, samplesMs) ==> x > lastSec
    decreases |samplesMs|
  {
    if |samplesMs| > 0 {
      var sec := samplesMs[0] / MsPerSecond;
      var rest := samplesMs[1..];
      if |rest| > 0 {
        DivMonotone(samplesMs[0], samplesMs[1]);
      }
      TicksIncrease(sec, rest);
      var tail := TickSeconds(sec, rest);
      var head: seq<nat> := if sec != lastSec then [sec] else [];
      var all := TickSeconds(lastSec, samplesMs);
      assert all == head + tail;
      forall i, j | 0 <= i < j < |all| ensures all[i] < all[j] {
        if |head| == 1 {
          assert all[j] == tail[j - 1] && tail[j - 1] in tail;
          if i > 0 {
            assert all[i] == tail[i - 1];
          }
        } else {
          assert all[i] == tail[i] && all[j] == tail[j];
        }
      }
    }
  }

  lemma {:induction false} TicksComeFromSamples(lastSec: int, samplesMs: seq<nat>)
    ensures forall x :: x in TickSeconds(lastSec, samplesMs) ==>
      exists i :: 0 <= i < |samplesMs| && samplesMs[i] / MsPerSecond == x
    decreases |samplesMs|
  {
    if |samplesMs| > 0 {
      var sec := samplesMs[0] / MsPerSecond;
      var rest := samplesMs[1..];
      TicksComeFromSamples(sec, rest);
      forall x | x in TickSeconds(lastSec, samplesMs)
        ensures exists i :: 0 <= i < |samplesMs| && samplesMs[i] / MsPerSecond == x
      {
        if x in TickSeconds(sec, rest) {
          var i :| 0 <= i < |rest| && rest[i] / MsPerSecond == x;
          assert samplesMs[i + 1] == rest[i];
        } else {
          assert samplesMs[0] / MsPerSecond == x;
        }
      }
    }
  }

  lemma {:induction false} EverySecondTicks(lastSec: int, samplesMs: seq<nat>)
    requires NonDecreasing(samplesMs)
    ensures forall i :: 0 <= i < |samplesMs| && samplesMs[i] / MsPerSecond > lastSec ==>
      samplesMs[i] / MsPerSecond in TickSeconds(lastSec, samplesMs)
    decreases |samplesMs|
  {
    if |samplesMs| > 0 {
      var sec := samplesMs[0] / MsPerSecond;
      var rest := samplesMs[1..];
      EverySecondTicks(sec, rest);
      var head: seq<nat> := if sec != lastSec then [sec] else [];
      assert TickSeconds(lastSec, samplesMs) == head + TickSeconds(sec, rest);
      forall i | 0 <= i < |samplesMs| && samplesMs[i] / MsPerSecond > lastSec
        ensures samplesMs[i] / MsPerSecond in TickSeconds(lastSec, samplesMs)
      {
        if i > 0 {
          assert samplesMs[i] == rest[i - 1];
          DivMonotone(samplesMs[0], samplesMs[i]);
        }
      }
    }
  }

  /**
    With non-decreasing sample times, exactly one tick is sent per whole
    second reached: the ticks strictly increase, all lie beyond `lastSec`,
    each comes from a sample, and every sample's second beyond `lastSec` has one.
  */
  lemma OneTickPerSecond(lastSec: int, samplesMs: seq<nat>)
    requires NonDecreasing(samplesMs)
    requires |samplesMs| > 0 ==> lastSec <= samplesMs[0] / MsPerSecond
    ensures StrictlyIncreasing(TickSeconds(lastSec, samplesMs))
    ensures forall x :: x in TickSeconds(lastSec, samplesMs) ==> x > lastSec
    ensures forall x :: x in TickSeconds(lastSec, samplesMs) ==>
      exists i :: 0 <= i < |samplesMs| && samplesMs[i] / MsPerSecond == x
    ensures forall i :: 0 <= i < |samplesMs| && samplesMs[i] / MsPerSecond > lastSec ==>
      samplesMs[i] / MsPerSecond in TickSeconds(lastSec, samplesMs)
  {
    TicksIncrease(lastSec, samplesMs);
    TicksComeFromSamples(lastSec, samplesMs);
    EverySecondTicks(lastSec, samplesMs);
  }

  lemma DivMonotone(a: nat, b: nat)
    requires a <= b
    ensures a / MsPerSecond <= b / MsPerSecond
  {
  }

  /** Leaving start moves to warmup and sends matchTime and both display-mode messages. */
  lemma StartScenario(t: Timing)
    ensures Update(t, StartMatch, 0, 0).state == WarmupPeriod
    ensures Update(t, StartMatch, 0, 0).sent
      == [Messages.MatchTime(2, 0), Messages.SetAudienceDisplay, Messages.SetAllianceStationDisplay]
  {
  }

  /** With a 3 s warmup, an update at 3 s enters autonomous (index 3) and sends status and matchTime(3, 3). */
  lemma WarmupBoundaryScenario(t: Timing)
    requires t.warmupSec == 3
    ensures StateIndex(Update(t, WarmupPeriod, 0, 3000).state) == 3
    ensures Update(t, WarmupPeriod, 0, 3000).sent == [Messages.Status, Messages.MatchTime(3, 3)]
  {
  }

  /** Inside autonomous, 1.01 s and 2.01 s each send one tick; 1.99 s sends nothing. */
  lemma SubSecondTickScenario(t: Timing)
    requires t.warmupSec == 3
    ensures Update(t, AutoPeriod, 3, 1010) == ClockStep(AutoPeriod, 1, [Messages.MatchTime(3, 1)])
    ensures Update(t, AutoPeriod, 1, 1990) == ClockStep(AutoPeriod, 1, [])
    ensures Update(t, AutoPeriod, 1, 2010) == ClockStep(AutoPeriod, 2, [Messages.MatchTime(3, 2)])
  {
  }

  /** At warmup plus autonomous seconds, autonomous gives way to the pause (index 4). */
  lemma AutoBoundaryScenario(t: Timing, lastSec: int)
    ensures StateIndex(Update(t, AutoPeriod, lastSec, (t.warmupSec + t.autoSec) * MsPerSecond).state) == 4
    ensures Update(t, AutoPeriod, lastSec, (t.warmupSec + t.autoSec) * MsPerSecond).sent
      == [Messages.Status, Messages.MatchTime(4, t.warmupSec + t.autoSec)]
  {
  }
}

=== FILE: match_model.dfy ===
/**
  The persistent records of the match-play core: matches, their results and
  the teams whose card state results update. Scores are opaque totals: the
  game's point rules turn raw scoring events into these numbers elsewhere.
*/
module MatchModel {

  /**
    The match's type. The test match is recognised by its id alone
    (`IsTestMatch`); its `Test` type is carried along but decides nothing.
  */
  datatype MatchType = Practice | Qualification | Elimination | Test

  /** The stored winner: "R", "B", "T", or "" while the match is unscored. */
  datatype Winner = RedWin | BlueWin | Tie | Undecided

  datatype MatchStatus = Scheduled | Complete

  datatype Match = Match(
    id: nat,
    kind: MatchType,
    displayName: string,
    status: MatchStatus,
    winner: Winner,
    red1: nat, red2: nat, red3: nat,
    blue1: nat, blue2: nat, blue3: nat)

  datatype Card = Yellow | Red

  /** One scoring of one match; a match re-scored several times has several. */
  datatype MatchResult = MatchResult(
    matchId: nat,
    playNumber: nat,
    redTotal: nat,
    blueTotal: nat,
    redCards: map<nat, Card>,
    blueCards: map<nat, Card>)

  /** A team and its sticky yellow-card flag, carried into its next matches. */
  datatype Team = Team(id: nat, yellowCard: bool)

  /** The database: matches by id, every result committed per match id in commit order, teams by id. */
  datatype Store = Store(
    matches: map<nat, Match>,
    results: map<nat, seq<MatchResult>>,
    teams: map<nat, Team>)

  /** The id of the unsaved sentinel match loaded when no real match is selected. */
  const TestMatchId: nat := 0

  predicate IsTestMatch(m: Match) {
    m.id == TestMatchId
  }

  /** A fresh result for a match: no score, no cards, no play number yet. */
  function NewMatchResult(matchId: nat): MatchResult {
    MatchResult(matchId, 0, 0, 0, map[], map[])
  }

  function ResultsFor(s: Store, matchId: nat): seq<MatchResult> {
    if matchId in s.results then s.results[matchId] else []
  }

  /** The result gives `team` a card of either colour, on either alliance. */
  predicate Carded(r: MatchResult, team: nat) {
    team in r.redCards || team in r.blueCards
  }
}

=== FILE: match_play.dfy ===
/**
  The match-play command handler: decodes a client's {type, payload}
  message into a command, checks it against the arena, applies it, and
  says which messages go to every client. A refused command changes
  nothing and answers the sender alone with an error.
*/
module MatchPlay {
  import opened Outcomes
  import opened MatchModel
  import Clock = MatchClock
  import Field
  import ScoreCommit
  import Messages

  /** The payload shapes clients send: none (nil), a bare string, or a team/position object. */
  datatype Payload = NoPayload | Text(text: string) | TeamPosition(team: nat, position: string)

  datatype Command =
    | SubstituteTeam(team: nat, position: string)
    | ToggleBypass(position: string)
    | StartMatch
    | AbortMatch
    | CommitResults
    | DiscardResults
    | SetAudienceDisplay(mode: string)
    | SetAllianceStationDisplay(mode: string)

  const InvalidMessageType := "Invalid message type"
  const FailedToParse := "Failed to parse"
  const InvalidAllianceStation := "Invalid alliance station"

  const KnownTypes: set<string> := {
    "substituteTeam", "toggleBypass", "startMatch", "abortMatch",
    "commitResults", "discardResults", "setAudienceDisplay", "setAllianceStationDisplay"
  }

  /** The message type a command travels under. */
  function CommandType(c: Command): string {
    match c
    case SubstituteTeam(_, _) => "substituteTeam"
    case ToggleBypass(_) => "toggleBypass"
    case StartMatch => "startMatch"
    case AbortMatch => "abortMatch"
    case CommitResults => "commitResults"
    case DiscardResults => "discardResults"
    case SetAudienceDisplay(_) => "setAudienceDisplay"
    case SetAllianceStationDisplay(_) => "setAllianceStationDisplay"
  }

  /** The payload a client sends with a command. */
  function CommandPayload(c: Command): Payload {
    match c
    case SubstituteTeam(team, position) => TeamPosition(team, position)
    case ToggleBypass(position) => Text(position)
    case SetAudienceDisplay(mode) => Text(mode)
    case SetAllianceStationDisplay(mode) => Text(mode)
    case _ => NoPayload
  }

  /**
    Decodes a message. A missing substituteTeam payload decodes to the empty
    object (team 0, position ""), which the station check then refuses.
  */
  function Decode(messageType: string, p: Payload): (r: Result<Command>)
    ensures r == Err(InvalidMessageType) <==> messageType !in KnownTypes
    ensures r.Ok? ==> CommandType(r.value) == messageType
    ensures r.Err? ==> r.msg == InvalidMessageType || r.msg == FailedToParse
    ensures messageType in {"toggleBypass", "setAudienceDisplay", "setAllianceStationDisplay"} ==> (r.Ok? <==> p.Text?)
    ensures messageType == "substituteTeam" ==> (r.Ok? <==> !p.Text?)
    ensures messageType == "substituteTeam" && p.NoPayload? ==> r == Ok(SubstituteTeam(0, ""))
    ensures messageType in KnownTypes && r.Err? ==> r.msg == FailedToParse
  {
    if messageType == "substituteTeam" then
      match p
      case TeamPosition(team, position) => Ok(SubstituteTeam(team, position))
      case NoPayload => Ok(SubstituteTeam(0, ""))
      case Text(_) => Err(FailedToParse)
    else if messageType == "toggleBypass" then
      if p.Text? then Ok(ToggleBypass(p.text)) else Err(FailedToParse)
    else if messageType == "startMatch" then Ok(StartMatch)
    else if messageType == "abortMatch" then Ok(AbortMatch)
    else if messageType == "commitResults" then Ok(CommitResults)
    else if messageType == "discardResults" then Ok(DiscardResults)
    else if messageType == "setAudienceDisplay" then
      if p.Text? then Ok(SetAudienceDisplay(p.text)) else Err(FailedToParse)
    else if messageType == "setAllianceStationDisplay" then
      if p.Text? then Ok(SetAllianceStationDisplay(p.text)) else Err(FailedToParse)
    else Err(InvalidMessageType)
  }

  /** Every command survives the trip through its wire form. */
  lemma DecodeRoundTrip(c: Command)
    ensures Decode(CommandType(c), CommandPayload(c)) == Ok(c)
  {
  }

  /** The result committed from the live scores of the loaded match. */
  function LiveResult(a: Field.Arena): MatchResult {
    MatchResult(a.current.id, 0, a.red.total, a.blue.total, a.red.cards, a.blue.cards)
  }

  /**
    Commits the live scores of the loaded match and keeps the committed match
    and result as the ones shown to the audience, also for the test match.
  */
  function CommitCurrentMatch(a: Field.Arena, s: Store): (r: (Field.Arena, Store))
    ensures r.0 == a.(savedMatch := r.0.savedMatch, savedResult := r.0.savedResult)
    ensures r.0.savedResult.Some? && r.0.savedMatch.Some?
    ensures r.0.savedResult.value.redCards == a.red.cards && r.0.savedResult.value.blueCards == a.blue.cards
    ensures !ScoreCommit.Disqualified(a.current.kind, a.red.cards) ==> r.0.savedResult.value.redTotal == a.red.total
    ensures !ScoreCommit.Disqualified(a.current.kind, a.blue.cards) ==> r.0.savedResult.value.blueTotal == a.blue.total
    ensures IsTestMatch(a.current) ==> r.1 == s
    ensures !IsTestMatch(a.current) ==>
      ResultsFor(r.1, a.current.id) == ResultsFor(s, a.current.id) + [r.0.savedResult.value]
    ensures var c := ScoreCommit.CommitMatchScore(s, a.current, LiveResult(a));
      r.1 == c.store && r.0.savedMatch == Some(c.scored) && r.0.savedResult == Some(c.result)
  {
    var c := ScoreCommit.CommitMatchScore(s, a.current, LiveResult(a));
    (a.(savedMatch := Some(c.scored), savedResult := Some(c.result)), c.store)
  }

  /** A successfully applied command: the new arena and store, and what is broadcast. */
  datatype Applied = Applied(arena: Field.Arena, store: Store, broadcast: seq<Messages.Message>)

  const ResetBroadcast := [Messages.Reload, Messages.RealtimeScore, Messages.SetAllianceStationDisplay]

  /**
    Checks and applies one command. commitResults and discardResults both
    end with a reset to pre-match; only a commit from post-match has a
    finished match to store, so from pre-match it resets alone.
  */
  function Apply(a: Field.Arena, s: Store, c: Command): (r: Result<Applied>)
    requires Field.Valid(a)
    ensures r.Ok? ==> Field.Valid(r.value.arena) && |r.value.broadcast| > 0
    ensures r.Err? ==> r.msg in {InvalidAllianceStation, Field.CannotStartMatch, Field.CannotAbortMatch, Field.CannotResetMatch}
    ensures r.Ok? && !c.CommitResults? ==> r.value.store == s
    ensures c.SubstituteTeam? ==> (r.Ok? <==> Field.ParseStation(c.position).Some?)
    ensures c.ToggleBypass? ==> (r.Ok? <==> Field.ParseStation(c.position).Some?)
    ensures (c.SubstituteTeam? || c.ToggleBypass?) && r.Err? ==> r.msg == InvalidAllianceStation
    ensures c.StartMatch? && r.Err? ==> r.msg == Field.CannotStartMatch
    ensures c.AbortMatch? && r.Err? ==> r.msg == Field.CannotAbortMatch
    ensures (c.CommitResults? || c.DiscardResults?) && r.Err? ==> r.msg == Field.CannotResetMatch
    ensures c.StartMatch? ==> (r.Ok? <==> a.state == Clock.PreMatch && Field.AllStationsReady(a))
    ensures c.StartMatch? && r.Ok? ==> r.value.arena.state == Clock.StartMatch
    ensures c.AbortMatch? ==> (r.Ok? <==> Clock.IsActive(a.state))
    ensures c.AbortMatch? && r.Ok? ==> r.value.arena.state == Clock.PostMatch
    ensures (c.CommitResults? || c.DiscardResults?) ==> (r.Ok? <==> !Clock.IsActive(a.state))
    ensures (c.CommitResults? || c.DiscardResults?) && r.Ok? ==>
      r.value.arena.state == Clock.PreMatch && r.value.broadcast == ResetBroadcast
    ensures c.SubstituteTeam? && r.Ok? ==>
      && Field.ParseStation(c.position).Some?
      && r.value == Applied(Field.SubstituteTeam(a, c.team, Field.ParseStation(c.position).value), s, [Messages.Status])
    ensures c.ToggleBypass? && r.Ok? ==>
      && Field.ParseStation(c.position).Some?
      && r.value == Applied(Field.ToggleBypass(a, Field.ParseStation(c.position).value), s, [Messages.Status])
    ensures c.StartMatch? && r.Ok? ==>
      && Field.StartMatch(a).Ok?
      && r.value == Applied(Field.StartMatch(a).value, s, [Messages.Status])
    ensures c.AbortMatch? && r.Ok? ==>
      && Field.AbortMatch(a).Ok?
      && r.value == Applied(Field.AbortMatch(a).value, s, [Messages.Status, Messages.SetAudienceDisplay])
    ensures c.CommitResults? && r.Ok? && a.state == Clock.PostMatch ==>
      var committed := CommitCurrentMatch(a, s);
      r.value.arena == committed.0.(state := Clock.PreMatch) && r.value.store == committed.1
    ensures c.CommitResults? && r.Ok? && a.state == Clock.PostMatch ==>
      r.value.arena.savedResult.Some? && r.value.arena.savedResult.value.redCards == a.red.cards
    ensures c.CommitResults? && a.state == Clock.PreMatch ==> r == Ok(Applied(a, s, ResetBroadcast))
    ensures c.DiscardResults? && r.Ok? ==> r.value.arena == a.(state := Clock.PreMatch)
    ensures c.SetAudienceDisplay? ==> r == Ok(Applied(a.(audienceDisplay := c.mode), s, [Messages.SetAudienceDisplay]))
    ensures c.SetAllianceStationDisplay? ==>
      r == Ok(Applied(a.(allianceStationDisplay := c.mode), s, [Messages.SetAllianceStationDisplay]))
  {
    match c
    case SubstituteTeam(team, position) =>
      (match Field.ParseStation(position)
       case None => Err(InvalidAllianceStation)
       case Some(k) => Ok(Applied(Field.SubstituteTeam(a, team, k), s, [Messages.Status])))
    case ToggleBypass(position) =>
      (match Field.ParseStation(position)
       case None => Err(InvalidAllianceStation)
       case Some(k) => Ok(Applied(Field.ToggleBypass(a, k), s, [Messages.Status])))
    case StartMatch =>
      (match Field.StartMatch(a)
       case Err(msg) => Err(msg)
       case Ok(started) => Ok(Applied(started, s, [Messages.Status])))
    case AbortMatch =>
      (match Field.AbortMatch(a)
       case Err(msg) => Err(msg)
       case Ok(aborted) => Ok(Applied(aborted, s, [Messages.Status, Messages.SetAudienceDisplay])))
    case CommitResults =>
      if Clock.IsActive(a.state) then Err(Field.CannotResetMatch)
      else if a.state == Clock.PostMatch then
        var committed := CommitCurrentMatch(a, s);
        Ok(Applied(committed.0.(state := Clock.PreMatch), committed.1, ResetBroadcast))
      else Ok(Applied(a, s, ResetBroadcast))
    case DiscardResults =>
      (match Field.ResetMatch(a)
       case Err(msg) => Err(msg)
       case Ok(reset) => Ok(Applied(reset, s, ResetBroadcast)))
    case SetAudienceDisplay(mode) =>
      Ok(Applied(a.(audienceDisplay := mode), s, [Messages.SetAudienceDisplay]))
    case SetAllianceStationDisplay(mode) =>
      Ok(Applied(a.(allianceStationDisplay := mode), s, [Messages.SetAllianceStationDisplay]))
  }

  /** What handling one inbound message produces: the state afterwards, the error to the sender, the broadcast. */
  datatype Reply = Reply(arena: Field.Arena, store: Store, error: Option<string>, broadcast: seq<Messages.Message>)

  /** Handles one inbound message from one client connection. */
  function HandleMessage(a: Field.Arena, s: Store, messageType: string, p: Payload): (r: Reply)
    requires Field.Valid(a)
    ensures Field.Valid(r.arena)
    ensures r.error.Some? ==> r.arena == a && r.store == s && r.broadcast == []
    ensures r.error.None? ==> |r.broadcast| > 0
    ensures messageType !in KnownTypes ==> r.error == Some(InvalidMessageType)
    ensures messageType in KnownTypes ==> r.error != Some(InvalidMessageType)
    ensures Decode(messageType, p).Err? ==> r.error == Some(Decode(messageType, p).msg)
    ensures Decode(messageType, p).Ok? && Apply(a, s, Decode(messageType, p).value).Err? ==>
      r.error == Some(Apply(a, s, Decode(messageType, p).value).msg)
    ensures r.error.None? <==>
      (Decode(messageType, p).Ok? && Apply(a, s, Decode(messageType, p).value).Ok?)
    ensures r.error.None? ==>
      && Decode(messageType, p).Ok? && Apply(a, s, Decode(messageType, p).value).Ok?
      && var applied := Apply(a, s, Decode(messageType, p).value).value;
         r == Reply(applied.arena, applied.store, None, applied.broadcast)
  {
    match Decode(messageType, p)
    case Err(msg) => Reply(a, s, Some(msg), [])
    case Ok(c) =>
      match Apply(a, s, c)
      case Err(msg) => Reply(a, s, Some(msg), [])
      case Ok(applied) => Reply(applied.arena, applied.store, None, applied.broadcast)
  }

  /** The match-state moves a message of type `messageType` may make. */
  predicate AllowedMove(messageType: string, from: Clock.MatchState, to: Clock.MatchState) {
    || from == to
    || (messageType == "startMatch" && from == Clock.PreMatch && to == Clock.StartMatch)
    || (messageType == "abortMatch" && Clock.IsActive(from) && to == Clock.PostMatch)
    || ((messageType == "commitResults" || messageType == "discardResults")
        && !Clock.IsActive(from) && to == Clock.PreMatch)
  }

  /**
    Commands drive the match only along its lifecycle: start from pre-match,
    abort from a running match, reset when no match runs; every other
    message, and every refused one, leaves the state where it was.
  */
  lemma HandleMessageMovesAlongLifecycle(a: Field.Arena, s: Store, messageType: string, p: Payload)
    requires Field.Valid(a)
    ensures AllowedMove(messageType, a.state, HandleMessage(a, s, messageType, p).arena.state)
    ensures messageType !in {"startMatch", "abortMatch", "commitResults", "discardResults"} ==>
      HandleMessage(a, s, messageType, p).arena.state == a.state
  {
  }

  /**
    Handling any message keeps the store's invariants: results stay numbered
    1, 2, 3, ... per match, and the card flags keep agreeing with the latest
    results. Only a commit from post-match writes to the store.
  */
  lemma HandleMessageKeepsStoreInvariants(a: Field.Arena, s: Store, messageType: string, p: Payload)
    requires Field.Valid(a)
    requires ScoreCommit.PlayNumbersSequential(s)
    ensures ScoreCommit.PlayNumbersSequential(HandleMessage(a, s, messageType, p).store)
    ensures ScoreCommit.CardsConsistent(s) ==> ScoreCommit.CardsConsistent(HandleMessage(a, s, messageType, p).store)
    ensures HandleMessage(a, s, messageType, p).store != s ==> messageType == "commitResults" && a.state == Clock.PostMatch
  {
  }

  /** An unknown message type is answered with an error and changes nothing. */
  lemma UnknownTypeScenario(a: Field.Arena, s: Store)
    requires Field.Valid(a)
    ensures HandleMessage(a, s, "nonexistenttype", NoPayload) == Reply(a, s, Some(InvalidMessageType), [])
  {
  }

  /**
    substituteTeam: a missing payload and position "B5" are refused as invalid
    stations; (254, "B1") puts team 254 in the blue 1 slot; (0, "B1") empties it.
  */
  lemma SubstituteTeamScenario(a: Field.Arena, s: Store)
    requires Field.Valid(a)
    ensures HandleMessage(a, s, "substituteTeam", NoPayload).error == Some(InvalidAllianceStation)
    ensures HandleMessage(a, s, "substituteTeam", TeamPosition(254, "B5")).error == Some(InvalidAllianceStation)
    ensures var r1 := HandleMessage(a, s, "substituteTeam", TeamPosition(254, "B1"));
            && r1.error == None && r1.broadcast == [Messages.Status] && r1.arena.current.blue1 == 254
            && HandleMessage(r1.arena, r1.store, "substituteTeam", TeamPosition(0, "B1")).arena.current.blue1 == 0
  {
  }

  /**
    toggleBypass: no payload fails to parse, "R4" is not a station, and two
    toggles of "R3" set and then clear its bypass flag.
  */
  lemma ToggleBypassScenario(a: Field.Arena, s: Store)
    requires Field.Valid(a) && !a.stations[Field.R3].bypass
    ensures HandleMessage(a, s, "toggleBypass", NoPayload).error == Some(FailedToParse)
    ensures HandleMessage(a, s, "toggleBypass", Text("R4")).error == Some(InvalidAllianceStation)
    ensures var r1 := HandleMessage(a, s, "toggleBypass", Text("R3"));
            && r1.error == None && r1.broadcast == [Messages.Status] && r1.arena.stations[Field.R3].bypass
            && var r2 := HandleMessage(r1.arena, r1.store, "toggleBypass", Text("R3"));
               r2.error == None && !r2.arena.stations[Field.R3].bypass && r2.arena == a
  {
  }

  /**
    The match flow: abort and start are refused in pre-match while a station is
    neither bypassed nor ready; with all six bypassed the match starts; reset
    commands are refused while it runs; abort goes to post-match.
  */
  lemma MatchFlowScenario(a: Field.Arena, s: Store, k: Field.StationKey)
    requires Field.Valid(a) && a.state == Clock.PreMatch
    requires !Field.StationReady(a.stations[k])
    ensures HandleMessage(a, s, "abortMatch", NoPayload).error == Some(Field.CannotAbortMatch)
    ensures HandleMessage(a, s, "startMatch", NoPayload).error == Some(Field.CannotStartMatch)
    ensures var ready := a.(stations := map j: Field.StationKey :: a.stations[j].(bypass := true));
            var started := HandleMessage(ready, s, "startMatch", NoPayload);
            && started.error == None && started.arena.state == Clock.StartMatch
            && HandleMessage(started.arena, started.store, "commitResults", NoPayload).error == Some(Field.CannotResetMatch)
            && HandleMessage(started.arena, started.store, "discardResults", NoPayload).error == Some(Field.CannotResetMatch)
            && var aborted := HandleMessage(started.arena, started.store, "abortMatch", NoPayload);
               && aborted.arena.state == Clock.PostMatch
               && aborted.broadcast == [Messages.Status, Messages.SetAudienceDisplay]
  {
  }

  /** Committing from post-match stores the live scores as the shown result and returns to pre-match. */
  lemma CommitFromPostMatchScenario(a: Field.Arena, s: Store)
    requires Field.Valid(a) && a.state == Clock.PostMatch
    requires a.current.kind != Elimination
    ensures var r := HandleMessage(a, s, "commitResults", NoPayload);
            && r.error == None
            && r.broadcast == ResetBroadcast
            && r.arena.state == Clock.PreMatch
            && r.arena.savedResult.Some?
            && r.arena.savedResult.value.redTotal == a.red.total
            && r.arena.savedResult.value.blueTotal == a.blue.total
            && HandleMessage(r.arena, r.store, "discardResults", NoPayload).arena.state == Clock.PreMatch
            && HandleMessage(r.arena, r.store, "discardResults", NoPayload).error == None
  {
  }

  /** Display commands accept any mode and broadcast only their own topic. */
  lemma DisplayScenario(a: Field.Arena, s: Store)
    requires Field.Valid(a)
    ensures HandleMessage(a, s, "setAudienceDisplay", Text("logo")).arena.audienceDisplay == "logo"
    ensures HandleMessage(a, s, "setAudienceDisplay", Text("logo")).broadcast == [Messages.SetAudienceDisplay]
    ensures HandleMessage(a, s, "setAllianceStationDisplay", Text("logo")).arena.allianceStationDisplay == "logo"
    ensures HandleMessage(a, s, "setAllianceStationDisplay", Text("logo")).broadcast == [Messages.SetAllianceStationDisplay]
  {
  }
}

=== FILE: outcomes.dfy ===
/** Failure-carrying wrappers shared by the match-play modules. */
module Outcomes {

  /** A value that may be absent (a nil pointer or a missing payload). */
  datatype Option<+T> = None | Some(value: T)

  /** Either a value or the human-readable error text the server sends back. */
  datatype Result<+T> = Ok(value: T) | Err(msg: string)
}

/**
  The message types the match-play server broadcasts to its display and
  control clients. `MatchTiming` and `ScoringStatus` are sent only in the
  initial sync of a new connection, which is not modelled.
*/
module Messages {

  datatype Message =
    | Status
    | MatchTiming
    | MatchTime(matchState: nat, matchTimeSec: nat)
    | RealtimeScore
    | SetAudienceDisplay
    | ScoringStatus
    | SetAllianceStationDisplay
    | Reload
}

=== FILE: score_commit.dfy ===
/**
  The score-commit engine: finalizes one result for a match, numbers it,
  decides the winner and recomputes every team's card flag.
*/
module ScoreCommit {
  import opened MatchModel

  predicate HasRedCard(cards: map<nat, Card>) {
    exists team :: team in cards && cards[team] == Red
  }

  /** An alliance with a red-carded team is disqualified in eliminations and scores nothing. */
  predicate Disqualified(kind: MatchType, cards: map<nat, Card>) {
    kind == Elimination && HasRedCard(cards)
  }

  function CorrectEliminationScore(kind: MatchType, r: MatchResult): MatchResult {
    r.(redTotal := if Disqualified(kind, r.redCards) then 0 else r.redTotal,
       blueTotal := if Disqualified(kind, r.blueCards) then 0 else r.blueTotal)
  }

  /** Higher total wins; equal totals tie, in every match type (no elimination tiebreak). */
  function DetermineWinner(redTotal: nat, blueTotal: nat): Winner {
    if redTotal > blueTotal then RedWin
    else if blueTotal > redTotal then BlueWin
    else Tie
  }

  /** The latest result of some match gives `team` a card. */
  predicate CardedInLatest(results: map<nat, seq<MatchResult>>, team: nat) {
    exists id :: id in results && |results[id]| > 0 && Carded(results[id][|results[id]| - 1], team)
  }

  /** As CardedInLatest, ignoring match `matchId`. */
  predicate CardedInOtherMatch(results: map<nat, seq<MatchResult>>, matchId: nat, team: nat) {
    exists id :: id in results && id != matchId && |results[id]| > 0 && Carded(results[id][|results[id]| - 1], team)
  }

  /** Every team's flag is recomputed from scratch; nothing is accumulated from its old value. */
  function RecalculateTeamCards(teams: map<nat, Team>, results: map<nat, seq<MatchResult>>): map<nat, Team> {
    map t | t in teams :: teams[t].(yellowCard := CardedInLatest(results, t))
  }

  /** Store invariant: each team's flag is set exactly when the latest result of some match carded it. */
  ghost predicate CardsConsistent(s: Store) {
    forall t :: t in s.teams ==> s.teams[t].yellowCard == CardedInLatest(s.results, t)
  }

  /** Store invariant: the results of a match are numbered 1, 2, 3, ... in commit order and belong to it. */
  ghost predicate PlayNumbersSequential(s: Store) {
    forall id, i :: id in s.results && 0 <= i < |s.results[id]| ==>
      s.results[id][i].playNumber == i + 1 && s.results[id][i].matchId == id
  }

  lemma {:induction false} CardedAfterAppend(results: map<nat, seq<MatchResult>>, matchId: nat, prior: seq<MatchResult>,
                                             r: MatchResult, team: nat)
    ensures CardedInLatest(results[matchId := prior + [r]], team)
        <==> Carded(r, team) || CardedInOtherMatch(results, matchId, team)
  {
    var updated := results[matchId := prior + [r]];
    assert updated[matchId][|updated[matchId]| - 1] == r;
    if CardedInLatest(updated, team) {
      var id :| id in updated && |updated[id]| > 0 && Carded(updated[id][|updated[id]| - 1], team);
      if id != matchId {
        assert updated[id] == results[id];
      }
    }
    if CardedInOtherMatch(results, matchId, team) {
      var id :| id in results && id != matchId && |results[id]| > 0 && Carded(results[id][|results[id]| - 1], team);
      assert updated[id] == results[id];
    }
  }

  /** What a commit hands back: the updated store, the match as saved (status and winner set), the result as saved. */
  datatype Commit = Commit(store: Store, scored: Match, result: MatchResult)

  /**
    Commits `res` as the newest scoring of `m`. The test match is never
    stored; any other match gets the next play number, its winner, and the
    card flags of all teams are recomputed.
  */
  function CommitMatchScore(s: Store, m: Match, res: MatchResult): (c: Commit)
    requires res.matchId == m.id
    ensures c.result.matchId == m.id
    ensures c.result.redCards == res.redCards && c.result.blueCards == res.blueCards
    ensures Disqualified(m.kind, res.redCards) ==> c.result.redTotal == 0
    ensures !Disqualified(m.kind, res.redCards) ==> c.result.redTotal == res.redTotal
    ensures Disqualified(m.kind, res.blueCards) ==> c.result.blueTotal == 0
    ensures !Disqualified(m.kind, res.blueCards) ==> c.result.blueTotal == res.blueTotal
    ensures IsTestMatch(m) ==> c.store == s && c.scored == m && c.result.playNumber == res.playNumber
    ensures !IsTestMatch(m) ==> c.result.playNumber == |ResultsFor(s, m.id)| + 1
    ensures !IsTestMatch(m) ==> ResultsFor(c.store, m.id) == ResultsFor(s, m.id) + [c.result]
    ensures !IsTestMatch(m) ==> forall id :: id != m.id ==> ResultsFor(c.store, id) == ResultsFor(s, id)
    ensures !IsTestMatch(m) ==> c.scored == m.(status := Complete, winner := c.scored.winner)
    ensures !IsTestMatch(m) ==> (c.scored.winner == RedWin <==> c.result.redTotal > c.result.blueTotal)
    ensures !IsTestMatch(m) ==> (c.scored.winner == BlueWin <==> c.result.blueTotal > c.result.redTotal)
    ensures !IsTestMatch(m) ==> (c.scored.winner == Tie <==> c.result.redTotal == c.result.blueTotal)
    ensures !IsTestMatch(m) ==> c.store.matches == s.matches[m.id := c.scored]
    ensures c.store.teams.Keys == s.teams.Keys
    ensures !IsTestMatch(m) ==> forall t :: t in c.store.teams ==>
      c.store.teams[t] == s.teams[t].(yellowCard := c.store.teams[t].yellowCard)
      && (c.store.teams[t].yellowCard <==> Carded(c.result, t) || CardedInOtherMatch(s.results, m.id, t))
  {
    var corrected := CorrectEliminationScore(m.kind, res);
    if IsTestMatch(m) then
      Commit(s, m, corrected)
    else
      var prior := ResultsFor(s, m.id);
      var stored := corrected.(playNumber := |prior| + 1);
      var completed := m.(status := Complete, winner := DetermineWinner(stored.redTotal, stored.blueTotal));
      var results := s.results[m.id := prior + [stored]];
      assert forall t :: CardedInLatest(results, t) <==> Carded(stored, t) || CardedInOtherMatch(s.results, m.id, t) by {
        forall t ensures CardedInLatest(results, t) <==> Carded(stored, t) || CardedInOtherMatch(s.results, m.id, t) {
          CardedAfterAppend(s.results, m.id, prior, stored, t);
        }
      }
      Commit(Store(s.matches[m.id := completed], results, RecalculateTeamCards(s.teams, results)), completed, stored)
  }

  /** Every commit keeps both store invariants, and a real commit restores card consistency from any store. */
  lemma CommitKeepsInvariants(s: Store, m: Match, res: MatchResult)
    requires res.matchId == m.id
    requires PlayNumbersSequential(s)
    ensures PlayNumbersSequential(CommitMatchScore(s, m, res).store)
    ensures CardsConsistent(s) ==> CardsConsistent(CommitMatchScore(s, m, res).store)
    ensures !IsTestMatch(m) ==> CardsConsistent(CommitMatchScore(s, m, res).store)
  {
  }

  /** Commits each of `rs` in turn on match `m`, re-reading the saved match between commits. */
  function CommitAll(s: Store, m: Match, rs: seq<MatchResult>): (Store, Match)
    requires forall i :: 0 <= i < |rs| ==> rs[i].matchId == m.id
    decreases |rs|
  {
    if |rs| == 0 then (s, m)
    else
      var c := CommitMatchScore(s, m, rs[0]);
      CommitAll(c.store, c.scored, rs[1..])
  }

  /** For any sequence of commits on one real match, the k-th gets play number (prior count) + k. */
  lemma {:induction false} CommitAllNumbersPlays(s: Store, m: Match, rs: seq<MatchResult>)
    requires !IsTestMatch(m)
    requires forall i :: 0 <= i < |rs| ==> rs[i].matchId == m.id
    ensures CommitAll(s, m, rs).1.id == m.id
    ensures |ResultsFor(CommitAll(s, m, rs).0, m.id)| == |ResultsFor(s, m.id)| + |rs|
    ensures ResultsFor(CommitAll(s, m, rs).0, m.id)[..|ResultsFor(s, m.id)|] == ResultsFor(s, m.id)
    ensures forall j :: |ResultsFor(s, m.id)| <= j < |ResultsFor(CommitAll(s, m, rs).0, m.id)| ==>
      ResultsFor(CommitAll(s, m, rs).0, m.id)[j].playNumber == j + 1
    decreases |rs|
  {
    if |rs| > 0 {
      var c := CommitMatchScore(s, m, rs[0]);
      var prior := ResultsFor(s, m.id);
      CommitAllNumbersPlays(c.store, c.scored, rs[1..]);
      var final := ResultsFor(CommitAll(s, m, rs).0, m.id);
      assert CommitAll(s, m, rs) == CommitAll(c.store, c.scored, rs[1..]);
      assert ResultsFor(c.store, m.id) == prior + [c.result];
      assert final[..|prior| + 1] == prior + [c.result];
      assert final[..|prior|] == (final[..|prior| + 1])[..|prior|];
      assert final[|prior|] == (final[..|prior| + 1])[|prior|];
    }
  }

  /** Elimination matches with equal (corrected) totals stay tied: no tiebreak is ever applied. */
  lemma EliminationTieStaysTied(s: Store, m: Match, res: MatchResult)
    requires res.matchId == m.id && !IsTestMatch(m)
    requires m.kind == Elimination
    requires res.redTotal == res.blueTotal
    requires HasRedCard(res.redCards) == HasRedCard(res.blueCards)
    ensures CommitMatchScore(s, m, res).scored.winner == Tie
  {
  }

  /** Committing the test match succeeds and stores no result for it. */
  lemma TestMatchStoresNothing(s: Store, m: Match, res: MatchResult)
    requires IsTestMatch(m) && res.matchId == m.id
    ensures ResultsFor(CommitMatchScore(s, m, res).store, m.id) == ResultsFor(s, m.id)
    ensures CommitMatchScore(s, m, res).store == s
  {
  }

  /**
    Three commits on a real qualification match with no prior results: blue
    scores only, red scores only, nobody scores. They get play numbers 1, 2, 3
    and winners blue, red, tie.
  */
  lemma RecommitScenario(s: Store, m: Match, bluePoints: nat, redPoints: nat)
    requires !IsTestMatch(m) && m.kind == Qualification
    requires ResultsFor(s, m.id) == []
    requires bluePoints > 0 && redPoints > 0
    ensures var c1 := CommitMatchScore(s, m, NewMatchResult(m.id).(blueTotal := bluePoints));
            var c2 := CommitMatchScore(c1.store, c1.scored, NewMatchResult(m.id).(redTotal := redPoints));
            var c3 := CommitMatchScore(c2.store, c2.scored, NewMatchResult(m.id));
            && c1.result.playNumber == 1 && c1.scored.winner == BlueWin
            && c2.result.playNumber == 2 && c2.scored.winner == RedWin
            && c3.result.playNumber == 3 && c3.scored.winner == Tie
            && |ResultsFor(c3.store, m.id)| == 3
  {
  }

  /**
    Card flags follow the latest result of the match: a yellow card sets the
    team's flag, a re-scoring without a card clears it, a red card sets it again.
  */
  lemma StickyCardScenario(s: Store, m: Match, team: nat)
    requires !IsTestMatch(m) && team in s.teams
    requires !CardedInOtherMatch(s.results, m.id, team)
    ensures var c1 := CommitMatchScore(s, m, NewMatchResult(m.id).(blueCards := map[team := Yellow]));
            var c2 := CommitMatchScore(c1.store, c1.scored, NewMatchResult(m.id));
            var c3 := CommitMatchScore(c2.store, c2.scored, NewMatchResult(m.id).(blueCards := map[team := Red]));
            && c1.store.teams[team].yellowCard
            && !c2.store.teams[team].yellowCard
            && c3.store.teams[team].yellowCard
  {
  }

  /**
    A red card on a red-alliance team in an elimination match zeroes red's
    total; blue's total is kept, so blue wins whenever it scored.
  */
  lemma EliminationRedCardScenario(s: Store, m: Match, res: MatchResult, team: nat)
    requires !IsTestMatch(m) && m.kind == Elimination && res.matchId == m.id
    requires res.redCards == map[team := Red] && !HasRedCard(res.blueCards)
    requires res.blueTotal > 0
    ensures CommitMatchScore(s, m, res).result.redTotal == 0
    ensures CommitMatchScore(s, m, res).result.blueTotal == res.blueTotal
    ensures CommitMatchScore(s, m, res).scored.winner == BlueWin
  {
    assert res.redCards[team] == Red;
  }

  /** The same result is a tie as a qualification and stays a tie when recommitted as an elimination. */
  lemma EliminationTieScenario(s: Store, m: Match, res: MatchResult)
    requires !IsTestMatch(m) && m.kind == Qualification && res.matchId == m.id
    requires res.redTotal == res.blueTotal && res.redCards == map[] && res.blueCards == map[]
    ensures CommitMatchScore(s, m, res).scored.winner == Tie
    ensures var c := CommitMatchScore(s, m, res);
            CommitMatchScore(c.store, c.scored.(kind := Elimination), res).scored.winner == Tie
  {
  }
}
